=== FILE: README.md ===
# A static-site deploy platform, modelled in Dafny

The platform deploys static sites from git and serves each one under its own
subdomain. It is made of three small Python programs, and this project models
the logic of each with the cloud calls replaced by oracles:

- **Server** (`server/main.py`, module `Server`). `POST /project` picks a slug:
  the request's own, or 8 random characters from `[a-z0-9]`. It then launches
  one ECS build task whose container environment carries the repository URL
  and the slug. It answers `{"status": "queued", ...}` with the site's URL
  `http://{slug}.localhost:8000`. The `SUBNETS` and `SECURITY_GROUPS` settings
  are comma-separated lists.
- **Builder** (`build/builder.py`, module `Builder`). The builder runs inside
  the task, in three steps:
  1. Clone the repository into a freshly emptied `/app/output`.
  2. Run `npm install && npm run build` there.
  3. Upload every regular file under `/app/output/dist` to S3 at
     `__outputs/{PROJECT_ID}/{relative path}`, with a guessed content type.

  The first step that raises ends the run. Nothing that was already uploaded
  is removed.
- **Reverse proxy** (`reverse-proxy/main.py`, module `Proxy`). The proxy takes
  the subdomain from the first label of the `Host` header. It rewrites `/` to
  `/index.html` and GETs `BASE_PATH/{subdomain}{path}`. When that answer is a
  404, it makes one more GET, for the site's `index.html` (the SPA fallback).
  The final answer goes back unchanged. A fetch that raises becomes a 500.

Module `Platform` connects the three programs:
- what the builder container actually sees of the server's command;
- whether the URL the server hands out routes back to the right site;
- that a site the builder published is served by the proxy.

Modules `Text` (Python's `str.split` and `str.join` on one character) and
`Wrappers` (`Option`, `Result`) are shared helpers.

Oracles and other modelling choices:
- The filesystem is a map from absolute paths (lists of components) to
  `File(body)` or `Dir`.
- The bucket is a map from `(bucket, key)` to `Object(body, contentType)`.
- `git clone`, the npm build, the `rglob` walk order, `mimetypes.guess_type`,
  `upload_file`, `run_task` and the proxy's HTTP client are all function
  parameters.
- An unset environment variable is `None`, and it reads "None" when formatted
  into an f-string.
- Randomness is a nondeterministic choice from the alphabet.

## Model

| member | source | states |
|---|---|---|
| `Proxy.Subdomain` | reverse-proxy/main.py:15-16 | The subdomain is a dot-free prefix of the host. It stops exactly at the first dot. It is the whole host (including "") when the host has no dot. |
| `Proxy.SubdomainIsFirstLabel` | reverse-proxy/main.py:16 | The `"." in hostname` test changes nothing: the subdomain always equals `hostname.split(".")[0]`. |
| `Proxy.SubdomainUnique` | reverse-proxy/main.py:16 | Any dot-free prefix that ends at a dot or at the end of the host is the subdomain, so the first label is the only such prefix. |
| `Proxy.NormalizePath` | reverse-proxy/main.py:22-24 | Only `/` is rewritten, to `/index.html`. Every other path is kept as given, so the bare site folder is never fetched. |
| `Proxy.SiteRoot` | reverse-proxy/main.py:15-19 | The upstream folder is `BASE_PATH/` followed by the Host header's first dot-separated label. A missing header gives the empty label, and an unset `BASE_PATH` prints as "None". |
| `Proxy.ErrorResponse` | reverse-proxy/main.py:42-46 | A raised fetch is answered with status 500 and no headers of the handler's own. The body is "Proxy error: " followed by exactly the exception's message. |
| `Proxy.Resolve` | reverse-proxy/main.py:14-46 | It makes one or two fetches. The first is `BASE_PATH/sub` plus the normalised path. A second happens iff the first answered 404, and it is `BASE_PATH/sub/index.html`. The reply of the last fetch is returned unchanged. If the last fetch raised, the answer is the 500. |
| `Proxy.RootFetchesIndex` | reverse-proxy/main.py:22-26 | Path `/` fetches `BASE_PATH/sub/index.html`. Every other path, including ones ending in `/`, is appended as given. |
| `Proxy.MissingHostIsEmptySubdomain` | reverse-proxy/main.py:15-19 | Without a Host header, the target is `BASE_PATH/` plus the path, i.e. the site with the empty subdomain. |
| `Proxy.FallbackOn404` | reverse-proxy/main.py:32-35 | A 404 on the target causes exactly one more fetch, of the site index. Its reply is returned whatever its status, even another 404. |
| `Proxy.PassThrough` | reverse-proxy/main.py:30-41 | For a non-404 reply to the target, nothing else is fetched. Status, body and headers are returned as received. |
| `Proxy.RaisedIs500` | reverse-proxy/main.py:28-46 | A target fetch that raises gives a 500 with "Proxy error: " + message and no fallback. A fallback that raises gives the same kind of 500. |
| `Proxy.StatusComesFromUpstream` | reverse-proxy/main.py:30-46 | The answer is either a 500 or a reply that one of the fetches actually returned. |
| `Builder.CloneRepo` | build/builder.py:22-28 | An existing `/app/output` that is a file makes rmtree raise. An unset repository URL raises before git runs. A non-zero git exit raises. On success, `/app/output` holds exactly the cloned tree, so no stale file survives, and nothing outside it changes. |
| `Builder.RunBuild` | build/builder.py:31-48 | The step raises when there is no workspace directory to run in. It also raises when the build's streamed output does not decode as text, whatever the exit code, and when the build exits non-zero. Otherwise the build's filesystem is carried forward. |
| `Builder.LoadConfig` | build/builder.py:16-18 | The bucket is `S3_BUCKET`, or `vercel-clone-outputs` when that is unset. `PROJECT_ID` and the repository URL are read as they are and may be unset. The URL is read only from `GIT_REPOSITORY_URL`. |
| `Builder.Key` | build/builder.py:59 | Every key lies in the project's folder `__outputs/{PROJECT_ID}/`, with an unset id printed as "None". |
| `Builder.KeyDecodes` | build/builder.py:59 | Splitting what follows the project's folder on `/` gives back the relative path of the file below dist. |
| `Builder.KeyInjective` | build/builder.py:59 | Keys are `__outputs/{PROJECT_ID}/{relative path}`. Two files at different paths below dist never share a key. |
| `Builder.ContentType` | build/builder.py:60-66 | The guessed type is used when there is a non-empty one, otherwise `application/octet-stream`. The result is never empty. |
| `Builder.FilePut` | build/builder.py:59-66 | A file's upload carries the file's own bytes. It goes to the configured bucket at the file's key, with a non-empty content type guessed from the file's full path. |
| `Builder.Planned` | build/builder.py:57-58 | The walk yields at most one upload per listed entry. |
| `Builder.PlannedCount` | build/builder.py:57-58 | If every listed entry is a regular file, there is one upload per entry. If none is, there are no uploads. |
| `Builder.PlannedCovers` | build/builder.py:57-59 | Every listed regular file has its upload, at its key, among the uploads of the walk. |
| `Builder.PlannedFromListing` | build/builder.py:57-58 | Every upload of the walk is that of a listed regular file. Directories and vanished entries produce no upload. |
| `Builder.ApplyAll` | build/builder.py:62-67 | After a sequence of uploads, the bucket holds exactly its old keys plus every uploaded location. |
| `Builder.ApplyAllUntouched` | build/builder.py:62-67 | A location that no upload targets keeps its old content. |
| `Builder.ApplyAllLast` | build/builder.py:62-67 | Last write wins: a location holds the content of the last upload to it. |
| `Builder.PlannedLocationsDistinct` | build/builder.py:57-59 | In a duplicate-free walk of a well-formed tree, no two uploads go to the same location. |
| `Builder.UploadEach` | build/builder.py:57-68 | The bucket is the old bucket plus every completed upload, with no rollback. Without a failure, the completed uploads are all the walk's uploads in walk order. With one, they are the prefix before the first upload that raised, and the model records that upload's key beside the exception's message. |
| `Builder.UploadDist` | build/builder.py:51-68 | A missing `dist` raises before any upload and leaves the bucket untouched. Otherwise the bucket keeps every completed upload. Without a failure, every planned upload of the walk completed, in walk order. A failure is an upload error, and the completed uploads are a strict prefix of the plan. |
| `Builder.Main` | build/builder.py:72-76 | The stages entered are clone, then build, then upload, each only after the previous one. Every completed upload stays in the bucket. A run that stops before upload has failed and uploaded nothing. |
| `Builder.UploadPublishesFile` | build/builder.py:57-67 | After a completed walk, each regular file below dist is in the bucket at its key, with its bytes and content type. |
| `Builder.UploadTouchesOnlyFiles` | build/builder.py:57-58 | Whether the loop completes or not, it writes only locations of regular files below dist. |
| `Builder.WalkPublishesExactlyTheFiles` | build/builder.py:57-68 | A completed walk adds exactly the locations of the regular files below dist, each with the right content. |
| `Builder.CloneFailureAborts` | build/builder.py:72-76 | A failed clone ends the run. Build and upload never run, and the bucket is unchanged. |
| `Builder.BuildFailureAborts` | build/builder.py:45-48 | A non-zero build exit ends the run before any upload, and the bucket is unchanged. The error is "Build failed", unless the output had already failed to decode. |
| `Builder.UndecodableOutputAborts` | build/builder.py:39-43 | Build output that does not decode ends the run before any upload, even when npm exits 0. The bucket is unchanged. |
| `Builder.MissingDistUploadsNothing` | build/builder.py:53-55 | A successful build that leaves no `dist` fails the run, and nothing is uploaded. |
| `Builder.StagesFollowOutcomes` | build/builder.py:72-76 | The build runs iff the clone succeeded. Uploading starts iff the build succeeded as well. |
| `Builder.UploadFailureKeepsEarlierUploads` | build/builder.py:57-68 | After a failed upload, the bucket is the old bucket plus the uploads planned before the failing one. The failing upload is the next planned one. |
| `Builder.SuccessPublishesExactlyTheFiles` | build/builder.py:72-76 | A successful run adds exactly the regular files the build left below dist, each at its key with its bytes and content type. |
| `Server.AlphabetIsSlugChars` | server/main.py:47 | The alphabet `ascii_lowercase + digits` is exactly the characters a-z and 0-9. |
| `Server.GenerateSlug` | server/main.py:45-47 | The slug has `length` characters (none for a negative length), all of them in a-z or 0-9. |
| `Server.ChooseSlug` | server/main.py:57 | A truthy requested slug is kept. A missing or empty one is replaced by the generated slug. |
| `Server.CommaList` | server/main.py:22-23 | An unset or empty variable gives `[]`. Otherwise the items are comma-free, there is one more item than there are commas, and joining them with commas gives the value back. |
| `Server.CommaListRoundTrip` | server/main.py:22-23 | Any list of comma-free names reads back unchanged from its comma-joined form, except `[""]`, which reads back as `[]`. |
| `Server.CommaListKeepsEmptySegments` | server/main.py:22 | Empty segments are kept: "a,,b" gives three items, the middle one empty. |
| `Server.LoadSettings` | server/main.py:18-23 | The cluster and task definition are read as they are and may be unset. Each list is empty exactly when its variable is unset or empty. Otherwise it joins back to the variable's value. |
| `Server.TaskCommand` | server/main.py:59-82 | One Fargate task is requested, of the configured cluster and task definition, with a public IP and the configured subnets and security groups. Its `build-server-image` container gets `GIT_REPOSITORY__URL = gitURL` and `PROJECT_ID = slug`, under two distinct names. |
| `Server.RunTask` | server/main.py:84 | A command carrying `None` where a string is expected is rejected before the ECS service is reached. Otherwise the service's outcome decides. |
| `Server.CorrectedTaskCommand` | server/main.py:75-78 | This is the command as written, except that the repository URL goes under `GIT_REPOSITORY_URL`, the name the builder reads. |
| `Server.ProjectUrl` | server/main.py:89 | The URL is `http://` followed by `{slug}.localhost:8000`, exactly as the handler formats it. |
| `Server.CreateProject` | server/main.py:53-91 | The slug is the requested one when truthy, else 8 characters from a-z and 0-9. One task is dispatched, with count 1, the configured subnets and security groups, and environment `GIT_REPOSITORY__URL = gitURL` and `PROJECT_ID = slug`. A "queued" reply with `projectSlug = slug` and `url = http://{slug}.localhost:8000` is produced iff `run_task` did not raise. `run_task` raises when the client rejects the command, and also when the service raises. In particular, a request without `gitURL`, or a server without `ECS_CLUSTER` or `ECS_TASK`, is never queued. |
| `Platform.LaunchEnvironment` | server/main.py:71-81 | A variable that no override names keeps the task definition's value. |
| `Platform.BuilderSeesSlug` | server/main.py:77 | When the server's command is launched, the builder reads `PROJECT_ID` as the chosen slug. |
| `Platform.RequestRepoUrlIsLost` | server/main.py:76 | As written, a launched builder's `GIT_REPOSITORY_URL` is whatever the task definition says, whatever the request's URL. If the task definition does not set it, the run fails before git runs and the bucket is unchanged. |
| `Platform.CorrectedDeliversRepoUrl` | build/builder.py:17-18 | With the corrected command, the builder reads the request's repository URL and the slug. |
| `Platform.ProjectUrlRoutesToSlug` | reverse-proxy/main.py:15-16 | Take a slug made only of a-z, 0-9 and `-`. The proxy routes its URL back to that slug's folder, both for the host as written and for the lowercased host a client sends. |
| `Platform.ClientKeepsRoutableHost` | reverse-proxy/main.py:15 | For such a slug, a client's lowercasing of the URL's host changes nothing. |
| `Platform.CapitalSlugMisroutes` | server/main.py:57 | A dot-free requested slug with a capital letter is not routed back to its own folder, because the client sends the host lowercased ("MySite" reaches "mysite"). |
| `Platform.GeneratedSlugsHaveNoDot` | server/main.py:47 | Generated slugs are made of a-z and 0-9, so they route back to their folder and contain no dot. |
| `Platform.DottedSlugMisroutes` | server/main.py:57 | Any requested slug with a dot routes to its first dot-separated label, never to itself. For example, "my.site" routes to "my", another site's folder. |
| `Platform.SiteRootOfProjectHost` | reverse-proxy/main.py:15-19 | For a slug made only of a-z, 0-9 and `-`, a client following the handed-out URL makes the proxy fetch from `BASE_PATH/{slug}`. |
| `Platform.RootServesIndex` | reverse-proxy/main.py:22-30 | For such a slug, against the bucket endpoint, a site's root is served with one fetch, status 200, and the stored index.html's bytes. |
| `Platform.UnknownRouteServesIndex` | reverse-proxy/main.py:32-35 | For such a slug, against the bucket endpoint, a path with no object behind it is served from the site's index.html after exactly two fetches. |
| `Platform.IndexKey` | build/builder.py:59 | The builder's key for `dist/index.html` is the key the proxy asks for at the site root. |
| `Platform.DeployedSiteServesIndex` | build/builder.py:51-70 | Take a successful build that produced `dist/index.html`, for a slug made only of a-z, 0-9 and `-`. A client visiting the site root gets exactly that file's bytes through the proxy. |

## Findings

| source | as written | input that shows it | evidently intended | confidence | as-written member | corrected member |
|---|---|---|---|---|---|---|
| server/main.py:76 | The override is named `GIT_REPOSITORY__URL` (double underscore). The builder reads `GIT_REPOSITORY_URL` (build/builder.py:18). | `POST /project {"gitURL": "https://example/repo.git"}` with a task definition that does not set `GIT_REPOSITORY_URL`: the builder's `REPO_URL` is `None` and `clone_repo` raises before cloning. | The override is named `GIT_REPOSITORY_URL`, so the requested repository is the one cloned. | medium, not executed (a task definition could supply the variable itself) | `Platform.RequestRepoUrlIsLost` | `Server.CorrectedTaskCommand`, proved by `Platform.CorrectedDeliversRepoUrl` |

`Server.CreateProject` keeps the command as written, since it models the
server as it is. The corrected command exists alongside it, with its property
proved.

## Left out

- FastAPI and middleware plumbing are left out: request parsing, a body that
  is not a JSON object, and non-string JSON values. `call_next` is never
  called, and every request method is proxied as a GET.
- The query string is not modelled: the proxy uses only `request.url.path`,
  so the model takes only the path.
- HTTP bodies are text, not bytes, and encoding is not modelled.
- Response headers are a map passed through unchanged. How httpx merges
  repeated headers and lowercases names is not modelled.
- Logging (`print`) is left out. The streaming of the build output is kept
  only as far as it can fail: its lines are not modelled.
- Builder.UploadEach: the key in `UploadFailed(key, message)` is the model's own
  tag. The exception boto3 raises does not always name the key:
  `NoCredentialsError`, for example, carries none.
- Builder.RunBuild: whether the build's output decodes in the locale's
  encoding is an oracle flag of the build. The model does not say which bytes
  or which encodings fail.
- Platform.ProjectUrlRoutesToSlug: the routing lemmas cover slugs made of a-z, 0-9 and
  `-`. A requested slug with capitals reaches the lowercased folder
  (`Platform.CapitalSlugMisroutes`). A slug with a dot reaches its first label
  (`Platform.DottedSlugMisroutes`). A slug holding `/`, `:`, `@`, `?` or `#`
  makes a URL whose host is not `{slug}.localhost:8000` at all, and URL
  parsing is not modelled.
- Platform.SiteRootOfProjectHost: holds for slugs made of a-z, 0-9 and `-`,
  for the reasons given under `Platform.ProjectUrlRoutesToSlug`.
- Platform.DeployedSiteServesIndex: holds for slugs made of a-z, 0-9 and `-`,
  for the same reasons.
- AWS clients are left out: credentials, regions, and the bucket client
  configuration. `upload_file` and `run_task` are oracles that either return
  or raise. The code ignores the `failures` list that `run_task` can return,
  and so does the model.
- The subprocesses are oracles giving an exit code and the resulting tree:
  `git clone` and `npm install && npm run build`. The build also reports
  whether its output decodes.
- Filesystem detail is left out: symlinks, permissions, and pathlib
  normalisation. The order `rglob` yields entries in is an oracle. The
  properties that need a faithful walk assume `Builder.IsWalk`, meaning each
  entry below dist is listed once.
- `mimetypes.guess_type` is an opaque oracle. Only the
  default-when-unknown rule is modelled.
- Server.GenerateSlug: states length and alphabet only, not that the choice is
  uniform or that every slug can occur. It does not claim uniqueness.
- Builder.Planned: its own contract only bounds the number of uploads. What
  the uploads are is stated by `Builder.PlannedCovers`,
  `Builder.PlannedFromListing` and `Builder.PlannedCount`.
- Proxy.ErrorResponse: headers the web framework adds to every response,
  such as `content-length`, are not modelled.
- Proxy.Resolve: the upstream is a function of the URL. When the target URL
  equals the fallback URL (for example, path `/index.html` answering 404), the
  model's second GET answers like the first, while a real second GET could
  answer differently.
- Server.RunTask: the client's parameter validation is modelled only as far as
  rejecting `None` strings. Other client-side checks, and the exact error
  text, are not modelled.
- The code has no deployment status lifecycle, no project or deployment
  records and no persistence, so none are modelled.
- Objects are stored under `__outputs/{PROJECT_ID}/`, the serving domain is
  the fixed `.localhost:8000`, and the deploy route is `POST /project`. The
  model uses these as the code does.
- The 500 body carries the exception's full message, including any upstream
  URL in it. The model carries that message unchanged.
- Platform.LaunchEnvironment assumes ECS behaviour that is outside this code:
  overrides update the task definition's environment in order.
- Platform.BucketEndpoint assumes `BASE_PATH` is the bucket's URL followed by
  `/__outputs`, and that a missing key answers 404. If a missing key answers
  403 instead, no SPA fallback happens.

=== FILE: builder.dfy ===
/** The build-and-publish pipeline of build/builder.py, run once per deployment
    inside a fresh container: clone the repository into /app/output, run
    `npm install && npm run build` there, then upload every regular file under
    /app/output/dist to the bucket under `__outputs/{PROJECT_ID}/{relative path}`.
    Any step that raises ends the run; nothing already uploaded is taken back.

    The machine's filesystem is a map from absolute paths (sequences of path
    components) to nodes. The subprocesses, the directory walk, the MIME table
    and the S3 client are oracles gathered in `Tools`. */
module Builder {
  import opened Wrappers
  import Text

  type Path = seq<string>

  datatype Node = File(body: string) | Dir

  type Fs = map<Path, Node>

  /** A stored object: its bytes and the Content-Type it was uploaded with. */
  datatype Object = Object(body: string, contentType: string)

  datatype Location = Location(bucket: string, key: string)

  type Store = map<Location, Object>

  /** One `upload_file` call: where the object goes and what it holds. */
  datatype Put = Put(location: Location, content: Object)

  const OutputDir: Path := ["app", "output"]
  const DistDir: Path := OutputDir + ["dist"]
  const DefaultBucket := "vercel-clone-outputs"
  const DefaultContentType := "application/octet-stream"
  const OutputsPrefix := "__outputs/"

  /** The environment the builder reads at start-up. */
  datatype Config = Config(bucket: string, projectId: Option<string>, repoUrl: Option<string>)

  /** `os.getenv` on the container's environment: the bucket falls back to its
      default only when unset; the project id and repository URL may be unset. */
  function LoadConfig(env: map<string, string>): (config: Config)
    ensures "S3_BUCKET" in env ==> config.bucket == env["S3_BUCKET"]
    ensures "S3_BUCKET" !in env ==> config.bucket == DefaultBucket
    ensures config.projectId.Some? <==> "PROJECT_ID" in env
    ensures config.projectId.Some? ==> config.projectId.value == env["PROJECT_ID"]
    // only the single-underscore name is read
    ensures config.repoUrl.Some? <==> "GIT_REPOSITORY_URL" in env
    ensures config.repoUrl.Some? ==> config.repoUrl.value == env["GIT_REPOSITORY_URL"]
  {
    Config(Get(env, "S3_BUCKET").GetOr(DefaultBucket), Get(env, "PROJECT_ID"), Get(env, "GIT_REPOSITORY_URL"))
  }

  /** A finished subprocess: its exit code and the filesystem it left behind. */
  datatype Process = Process(exitCode: int, fs: Fs)

  /** The build subprocess, whose combined output the builder reads back as
      text: whether all of that output decodes in the locale's encoding, its
      exit code, and the filesystem it left behind. */
  datatype BuildRun = BuildRun(outputDecodes: bool, exitCode: int, fs: Fs)

  /** The outside world the builder calls into.
      - gitClone(url): `git clone url /app/output`; the tree it wrote, relative
        to /app/output.
      - npmBuild(fs): `npm install && npm run build` in /app/output; whether its
        output decodes, its exit code and the whole filesystem afterwards.
      - rglob(fs): what `dist.rglob("*")` yields, relative to dist, in the order
        the directory scan produces.
      - guessType(path): the type half of `mimetypes.guess_type(path)`.
      - upload(put): `s3.upload_file`; None when it returns, the exception's
        message when it raises. */
  datatype Tools = Tools(
    gitClone: string -> Process,
    npmBuild: Fs -> BuildRun,
    rglob: Fs -> seq<Path>,
    guessType: string -> Option<string>,
    upload: Put -> Option<string>)

  /** The exceptions that end a run, by the step that raises them. */
  datatype Failure =
    | OutputNotADirectory          // rmtree of /app/output when it is a regular file
    | RepoUrlUnset                 // subprocess.run with None in its argument list
    | CloneFailed(exitCode: int)   // check=True on a failing git clone
    | WorkspaceMissing             // Popen with /app/output missing as a directory
    | OutputUndecodable            // UnicodeDecodeError while streaming the build's output
    | BuildFailed                  // RuntimeError("Build failed"), which names no exit code
    | DistMissing                  // "dist folder not found after build"
    | UploadFailed(key: string, message: string)  // the key is the model's tag, not part of the message

  predicate Under(root: Path, p: Path)
  {
    |root| <= |p| && p[..|root|] == root
  }

  predicate StrictlyUnder(root: Path, p: Path)
  {
    |root| < |p| && p[..|root|] == root
  }

  predicate IsFile(fs: Fs, p: Path)
  {
    p in fs && fs[p].File?
  }

  /** Every path component is a real file name, free of `/`. */
  ghost predicate WellFormed(fs: Fs)
  {
    forall p :: p in fs ==> Text.SeparatorFree(p, '/')
  }

  lemma ConcatSuffix(root: Path, q: Path)
    ensures (root + q)[..|root|] == root && (root + q)[|root|..] == q
  {
  }

  // ---------------------------------------------------------------------------
  // clone_repo

  /** `shutil.rmtree(root)`: the subtree at root is gone, the rest untouched. */
  function RemoveTree(fs: Fs, root: Path): Fs
  {
    map p | p in fs && !Under(root, p) :: fs[p]
  }

  /** The filesystem with `tree` (paths relative to root) written at root. */
  function Graft(fs: Fs, root: Path, tree: Fs): Fs
  {
    var placed := set q | q in tree && |q| > 0 :: root + q;
    map p | p in fs.Keys + placed + {root} ::
      if p == root then Dir
      else if StrictlyUnder(root, p) && p[|root|..] in tree then tree[p[|root|..]]
      else fs[p]
  }

  /** `clone_repo`: remove any existing /app/output, then clone into it. */
  function CloneRepo(fs: Fs, repoUrl: Option<string>, gitClone: string -> Process): (r: Result<Fs, Failure>)
    ensures IsFile(fs, OutputDir) ==> r == Failure(OutputNotADirectory)
    ensures r == Failure(RepoUrlUnset) <==> !IsFile(fs, OutputDir) && repoUrl.None?
    ensures r.Success? <==> !IsFile(fs, OutputDir) && repoUrl.Some? && gitClone(repoUrl.value).exitCode == 0
    ensures r.Failure? && !IsFile(fs, OutputDir) && repoUrl.Some? ==>
      r.error == CloneFailed(gitClone(repoUrl.value).exitCode)
    // after a clone the workspace holds exactly what was cloned: nothing stale survives
    ensures r.Success? ==> OutputDir in r.value && r.value[OutputDir] == Dir
    ensures r.Success? ==> forall p :: StrictlyUnder(OutputDir, p) ==>
      (p in r.value <==> p[|OutputDir|..] in gitClone(repoUrl.value).fs)
    ensures r.Success? ==> forall q :: q in gitClone(repoUrl.value).fs && |q| > 0 ==>
      OutputDir + q in r.value && r.value[OutputDir + q] == gitClone(repoUrl.value).fs[q]
    // and nothing outside it changed
    ensures r.Success? ==> forall p :: !Under(OutputDir, p) ==>
      (p in r.value <==> p in fs) && (p in fs ==> r.value[p] == fs[p])
  {
    if IsFile(fs, OutputDir) then Failure(OutputNotADirectory)
    else
      var cleared := RemoveTree(fs, OutputDir);
      if repoUrl.None? then Failure(RepoUrlUnset)
      else
        var run := gitClone(repoUrl.value);
        if run.exitCode != 0 then Failure(CloneFailed(run.exitCode))
        else
          var r := Graft(cleared, OutputDir, run.fs);
          assert forall q :: q in run.fs && |q| > 0 ==> OutputDir + q in r && r[OutputDir + q] == run.fs[q] by {
            forall q | q in run.fs && |q| > 0
              ensures OutputDir + q in r && r[OutputDir + q] == run.fs[q]
            {
              ConcatSuffix(OutputDir, q);
            }
          }
          assert forall p :: StrictlyUnder(OutputDir, p) ==> (p in r <==> p[|OutputDir|..] in run.fs) by {
            forall p | StrictlyUnder(OutputDir, p)
              ensures p in r <==> p[|OutputDir|..] in run.fs
            {
              assert p == OutputDir + p[|OutputDir|..];
              if p in r {
                assert p !in cleared && p != OutputDir;
                var q :| q in run.fs && |q| > 0 && p == OutputDir + q;
                ConcatSuffix(OutputDir, q);
              }
            }
          }
          Success(r)
  }

  // ---------------------------------------------------------------------------
  // run_build

  predicate WorkspaceReady(fs: Fs)
  {
    OutputDir in fs && fs[OutputDir].Dir?
  }

  /** `run_build`: raises when the build cannot start for want of a workspace,
      when its streamed output does not decode (the loop over the output runs
      before the exit code is looked at), or when it exits non-zero; otherwise
      the build's filesystem goes forward. */
  function RunBuild(fs: Fs, npmBuild: Fs -> BuildRun): (r: Result<Fs, Failure>)
    ensures r.Success? <==> WorkspaceReady(fs) && npmBuild(fs).outputDecodes && npmBuild(fs).exitCode == 0
    ensures r.Success? ==> r.value == npmBuild(fs).fs
    ensures !WorkspaceReady(fs) ==> r == Failure(WorkspaceMissing)
    ensures WorkspaceReady(fs) && !npmBuild(fs).outputDecodes ==> r == Failure(OutputUndecodable)
    ensures WorkspaceReady(fs) && npmBuild(fs).outputDecodes && npmBuild(fs).exitCode != 0 ==>
      r == Failure(BuildFailed)
  {
    if !WorkspaceReady(fs) then Failure(WorkspaceMissing)
    else
      var run := npmBuild(fs);
      if !run.outputDecodes then Failure(OutputUndecodable)
      else if run.exitCode != 0 then Failure(BuildFailed)
      else Success(run.fs)
  }

  // ---------------------------------------------------------------------------
  // upload_dist: keys, content types, and the upload loop

  /** `str(path)` of a path relative to dist; the empty path prints as ".". */
  function RelativeText(rel: Path): string
  {
    if |rel| == 0 then "." else Text.Join(rel, '/')
  }

  /** `str(path)` of an absolute path. */
  function PathText(p: Path): string
  {
    if |p| == 0 then "/" else "/" + Text.Join(p, '/')
  }

  /** The object key of a file at `rel` below dist: the outputs folder, the
      project id as printed, a slash, then the relative path. */
  function Key(projectId: Option<string>, rel: Path): (k: string)
    ensures var folder := OutputsPrefix + Text.Format(projectId) + "/";
      |folder| <= |k| && k[..|folder|] == folder
  {
    OutputsPrefix + Text.Format(projectId) + "/" + RelativeText(rel)
  }

  /** The relative path reads back from the key: drop the project's folder and
      split on `/`. */
  lemma KeyDecodes(projectId: Option<string>, rel: Path)
    requires |rel| > 0 && Text.SeparatorFree(rel, '/')
    ensures var folder := OutputsPrefix + Text.Format(projectId) + "/";
      Text.Split(Key(projectId, rel)[|folder|..], '/') == rel
  {
    var folder := OutputsPrefix + Text.Format(projectId) + "/";
    assert Key(projectId, rel)[|folder|..] == RelativeText(rel);
    Text.SplitJoin(rel, '/');
  }

  /** Distinct files get distinct keys: the key determines the relative path. */
  lemma KeyInjective(projectId: Option<string>, a: Path, b: Path)
    requires |a| > 0 && |b| > 0
    requires Text.SeparatorFree(a, '/') && Text.SeparatorFree(b, '/')
    requires Key(projectId, a) == Key(projectId, b)
    ensures a == b
  {
    KeyDecodes(projectId, a);
    KeyDecodes(projectId, b);
  }

  /** `content_type or "application/octet-stream"`: the guessed type when there
      is a non-empty one, the generic binary type otherwise. */
  function ContentType(guess: Option<string>): (t: string)
    ensures t != ""
    ensures guess.Some? && guess.value != "" ==> t == guess.value
    ensures !(guess.Some? && guess.value != "") ==> t == DefaultContentType
  {
    if guess.Some? && guess.value != "" then guess.value else DefaultContentType
  }

  /** The upload of the file at `rel` below dist: the file's own bytes, to the
      configured bucket, at the file's key, with a non-empty content type
      guessed from its full path. */
  function FilePut(fs: Fs, rel: Path, config: Config, guessType: string -> Option<string>): (put: Put)
    requires IsFile(fs, DistDir + rel)
    ensures put.location.bucket == config.bucket && put.location.key == Key(config.projectId, rel)
    ensures put.content.body == fs[DistDir + rel].body
    ensures put.content.contentType != ""
    ensures put.content.contentType == ContentType(guessType(PathText(DistDir + rel)))
  {
    var path := DistDir + rel;
    Put(Location(config.bucket, Key(config.projectId, rel)),
        Object(fs[path].body, ContentType(guessType(PathText(path)))))
  }

  /** The uploads a walk calls for, in walk order: one per listed regular file,
      none for directories or vanished entries. */
  function Planned(fs: Fs, listing: seq<Path>, config: Config, guessType: string -> Option<string>): (plan: seq<Put>)
    ensures |plan| <= |listing|
    decreases |listing|
  {
    if |listing| == 0 then []
    else
      var rest := Planned(fs, listing[1..], config, guessType);
      if IsFile(fs, DistDir + listing[0]) then [FilePut(fs, listing[0], config, guessType)] + rest else rest
  }

  /** One upload per entry when every entry is a regular file; none when no
      entry is. */
  lemma {:induction false} PlannedCount(fs: Fs, listing: seq<Path>, config: Config,
                                        guessType: string -> Option<string>)
    ensures (forall i :: 0 <= i < |listing| ==> IsFile(fs, DistDir + listing[i])) ==>
      |Planned(fs, listing, config, guessType)| == |listing|
    ensures (forall i :: 0 <= i < |listing| ==> !IsFile(fs, DistDir + listing[i])) ==>
      Planned(fs, listing, config, guessType) == []
    decreases |listing|
  {
    if |listing| > 0 {
      assert forall i :: 1 <= i < |listing| ==> listing[1..][i - 1] == listing[i];
      PlannedCount(fs, listing[1..], config, guessType);
    }
  }

  /** Every listed regular file has its upload in the plan. */
  lemma {:induction false} PlannedCovers(fs: Fs, listing: seq<Path>, config: Config,
                                         guessType: string -> Option<string>, i: nat) returns (j: nat)
    requires i < |listing| && IsFile(fs, DistDir + listing[i])
    ensures j < |Planned(fs, listing, config, guessType)|
    ensures Planned(fs, listing, config, guessType)[j] == FilePut(fs, listing[i], config, guessType)
    decreases |listing|
  {
    var head := IsFile(fs, DistDir + listing[0]);
    if i == 0 {
      j := 0;
    } else {
      assert listing[1..][i - 1] == listing[i];
      var j' := PlannedCovers(fs, listing[1..], config, guessType, i - 1);
      j := if head then j' + 1 else j';
    }
  }

  /** Every planned upload is that of a listed regular file: directories and
      vanished entries produce none. */
  lemma {:induction false} PlannedFromListing(fs: Fs, listing: seq<Path>, config: Config,
                                              guessType: string -> Option<string>, j: nat) returns (i: nat)
    requires j < |Planned(fs, listing, config, guessType)|
    ensures i < |listing| && IsFile(fs, DistDir + listing[i])
    ensures Planned(fs, listing, config, guessType)[j] == FilePut(fs, listing[i], config, guessType)
    decreases |listing|
  {
    var head := IsFile(fs, DistDir + listing[0]);
    if head && j == 0 {
      i := 0;
    } else {
      var i' := PlannedFromListing(fs, listing[1..], config, guessType, if head then j - 1 else j);
      assert listing[1..][i'] == listing[i' + 1];
      i := i' + 1;
    }
  }

  /** The bucket after a sequence of uploads, later ones overwriting earlier. */
  function ApplyAll(store: Store, puts: seq<Put>): (r: Store)
    ensures r.Keys == store.Keys + (set i | 0 <= i < |puts| :: puts[i].location)
    decreases |puts|
  {
    if |puts| == 0 then store
    else
      var r := ApplyAll(store[puts[0].location := puts[0].content], puts[1..]);
      assert forall i :: 1 <= i < |puts| ==> puts[i] == puts[1..][i - 1];
      assert (set i | 0 <= i < |puts| :: puts[i].location)
          == {puts[0].location} + (set i | 0 <= i < |puts[1..]| :: puts[1..][i].location);
      r
  }

  /** What an upload loop did: the bucket afterwards, the uploads that
      completed, and the exception that stopped it, if any. */
  datatype Publish = Publish(store: Store, puts: seq<Put>, failure: Option<Failure>)

  /** The loop of `upload_dist` over the walk: upload each regular file, stop at
      the first upload that raises. */
  function UploadEach(fs: Fs, listing: seq<Path>, config: Config, tools: Tools, store: Store): (u: Publish)
    // no rollback: the bucket holds every upload that completed
    ensures u.store == ApplyAll(store, u.puts)
    ensures forall i :: 0 <= i < |u.puts| ==> tools.upload(u.puts[i]).None?
    ensures u.failure.None? ==> u.puts == Planned(fs, listing, config, tools.guessType)
    // a failure is the first planned upload that raised; those before it completed
    ensures u.failure.Some? ==>
      var plan := Planned(fs, listing, config, tools.guessType);
      && |u.puts| < |plan| && u.puts == plan[..|u.puts|]
      && tools.upload(plan[|u.puts|]).Some?
      && u.failure.value == UploadFailed(plan[|u.puts|].location.key, tools.upload(plan[|u.puts|]).value)
    decreases |listing|
  {
    if |listing| == 0 then Publish(store, [], None)
    else if IsFile(fs, DistDir + listing[0]) then
      var put := FilePut(fs, listing[0], config, tools.guessType);
      match tools.upload(put)
      case Some(message) => Publish(store, [], Some(UploadFailed(put.location.key, message)))
      case None =>
        var rest := UploadEach(fs, listing[1..], config, tools, store[put.location := put.content]);
        var puts := [put] + rest.puts;
        assert puts[1..] == rest.puts;
        assert Planned(fs, listing, config, tools.guessType) == [put] + Planned(fs, listing[1..], config, tools.guessType);
        assert forall i :: 0 < i < |puts| ==> puts[i] == rest.puts[i - 1];
        Publish(rest.store, puts, rest.failure)
    else
      assert Planned(fs, listing, config, tools.guessType) == Planned(fs, listing[1..], config, tools.guessType);
      UploadEach(fs, listing[1..], config, tools, store)
  }

  /** `upload_dist`: raise if the build left no dist, else run the upload loop
      over the walk of dist. */
  function UploadDist(fs: Fs, config: Config, tools: Tools, store: Store): (u: Publish)
    ensures DistDir !in fs ==> u == Publish(store, [], Some(DistMissing))
    // no rollback: every completed upload stays
    ensures u.store == ApplyAll(store, u.puts)
    ensures DistDir in fs ==>
      var plan := Planned(fs, tools.rglob(fs), config, tools.guessType);
      && (u.failure.None? ==> u.puts == plan)
      && (u.failure.Some? ==> u.failure.value.UploadFailed? && |u.puts| < |plan| && u.puts == plan[..|u.puts|])
  {
    if DistDir !in fs then Publish(store, [], Some(DistMissing))
    else UploadEach(fs, tools.rglob(fs), config, tools, store)
  }

  // ---------------------------------------------------------------------------
  // __main__: clone, then build, then upload

  datatype Stage = Clone | Build | Upload

  /** A run of the builder: the stages entered, the filesystem the build left
      (when it succeeded), the bucket afterwards, the uploads that completed,
      and the exception that ended the run, if any. */
  datatype Run = Run(stages: seq<Stage>, built: Option<Fs>, store: Store, puts: seq<Put>, failure: Option<Failure>)

  function Main(fs: Fs, config: Config, tools: Tools, store: Store): (d: Run)
    ensures d.stages == [Clone] || d.stages == [Clone, Build] || d.stages == [Clone, Build, Upload]
    ensures d.store == ApplyAll(store, d.puts)
    ensures d.failure.None? ==> d.stages == [Clone, Build, Upload]
    ensures d.stages != [Clone, Build, Upload] ==> d.failure.Some? && d.puts == [] && d.store == store
    ensures d.built.Some? <==> d.stages == [Clone, Build, Upload]
  {
    match CloneRepo(fs, config.repoUrl, tools.gitClone)
    case Failure(e) => Run([Clone], None, store, [], Some(e))
    case Success(cloned) =>
      match RunBuild(cloned, tools.npmBuild)
      case Failure(e) => Run([Clone, Build], None, store, [], Some(e))
      case Success(built) =>
        var u := UploadDist(built, config, tools, store);
        Run([Clone, Build, Upload], Some(built), u.store, u.puts, u.failure)
  }

  // ---------------------------------------------------------------------------
  // Properties of the pipeline

  /** Every listed path is non-empty, relative to dist, and names an entry of
      the filesystem. */
  ghost predicate Listed(fs: Fs, listing: seq<Path>)
  {
    forall i :: 0 <= i < |listing| ==> |listing[i]| > 0 && DistDir + listing[i] in fs
  }

  ghost predicate NoDuplicates(listing: seq<Path>)
  {
    forall i, j :: 0 <= i < j < |listing| ==> listing[i] != listing[j]
  }

  ghost predicate Complete(fs: Fs, listing: seq<Path>)
  {
    forall p :: p in fs && StrictlyUnder(DistDir, p) ==> p[|DistDir|..] in listing
  }

  /** What `rglob` yields: each entry below dist exactly once (`Complete` and
      `NoDuplicates`), by a non-empty path relative to dist (`Listed`). */
  ghost predicate IsWalk(fs: Fs, listing: seq<Path>)
  {
    Listed(fs, listing) && NoDuplicates(listing) && Complete(fs, listing)
  }

  /** Where the regular files below dist belong in the bucket. */
  ghost function FileLocations(fs: Fs, config: Config): set<Location>
  {
    set p | p in fs && StrictlyUnder(DistDir, p) && fs[p].File? ::
      Location(config.bucket, Key(config.projectId, p[|DistDir|..]))
  }

  lemma RelativeSeparatorFree(fs: Fs, rel: Path)
    requires WellFormed(fs) && DistDir + rel in fs
    ensures Text.SeparatorFree(rel, '/')
  {
    var p := DistDir + rel;
    assert Text.SeparatorFree(p, '/');
    forall i | 0 <= i < |rel| ensures '/' !in rel[i] {
      assert rel[i] == p[|DistDir| + i];
    }
  }

  /** A location no later upload touches keeps what it held. */
  lemma {:induction false} ApplyAllUntouched(store: Store, puts: seq<Put>, loc: Location)
    requires loc in store
    requires forall k :: 0 <= k < |puts| ==> puts[k].location != loc
    ensures loc in ApplyAll(store, puts) && ApplyAll(store, puts)[loc] == store[loc]
    decreases |puts|
  {
    if |puts| > 0 {
      ApplyAllUntouched(store[puts[0].location := puts[0].content], puts[1..], loc);
    }
  }

  /** Last write wins: a location holds the content of the last upload to it. */
  lemma {:induction false} ApplyAllLast(store: Store, puts: seq<Put>, j: nat)
    requires j < |puts|
    requires forall k :: j < k < |puts| ==> puts[k].location != puts[j].location
    ensures puts[j].location in ApplyAll(store, puts)
    ensures ApplyAll(store, puts)[puts[j].location] == puts[j].content
    decreases |puts|
  {
    var next := store[puts[0].location := puts[0].content];
    if j == 0 {
      ApplyAllUntouched(next, puts[1..], puts[0].location);
    } else {
      ApplyAllLast(next, puts[1..], j - 1);
    }
  }

  /** No two uploads of `puts` go to the same location. */
  ghost predicate LocationsDistinct(puts: seq<Put>)
  {
    forall j, k :: 0 <= j < k < |puts| ==> puts[j].location != puts[k].location
  }

  /** The first listed file's location differs from every later planned one. */
  lemma HeadKeyDiffers(fs: Fs, listing: seq<Path>, config: Config,
                       guessType: string -> Option<string>, k: nat)
    requires Listed(fs, listing) && NoDuplicates(listing) && WellFormed(fs)
    requires |listing| > 0 && IsFile(fs, DistDir + listing[0])
    requires k < |Planned(fs, listing[1..], config, guessType)|
    ensures FilePut(fs, listing[0], config, guessType).location
      != Planned(fs, listing[1..], config, guessType)[k].location
  {
    var tail := listing[1..];
    var rest := Planned(fs, tail, config, guessType);
    var i := PlannedFromListing(fs, tail, config, guessType, k);
    assert tail[i] == listing[i + 1];
    if FilePut(fs, listing[0], config, guessType).location == rest[k].location {
      RelativeSeparatorFree(fs, listing[0]);
      RelativeSeparatorFree(fs, tail[i]);
      KeyInjective(config.projectId, listing[0], tail[i]);
      assert false;
    }
  }

  /** Distinct files get distinct keys: a walk never uploads two files to the
      same location. */
  lemma {:induction false} PlannedLocationsDistinct(fs: Fs, listing: seq<Path>, config: Config,
                                                    guessType: string -> Option<string>)
    requires Listed(fs, listing) && NoDuplicates(listing) && WellFormed(fs)
    ensures LocationsDistinct(Planned(fs, listing, config, guessType))
    decreases |listing|
  {
    if |listing| > 0 {
      var tail := listing[1..];
      assert forall i :: 0 <= i < |tail| ==> tail[i] == listing[i + 1];
      PlannedLocationsDistinct(fs, tail, config, guessType);
      var rest := Planned(fs, tail, config, guessType);
      if !IsFile(fs, DistDir + listing[0]) {
        assert Planned(fs, listing, config, guessType) == rest;
      } else {
        var head := FilePut(fs, listing[0], config, guessType);
        var plan := [head] + rest;
        assert plan == Planned(fs, listing, config, guessType);
        assert LocationsDistinct(rest);
        forall j, k | 0 <= j < k < |plan| ensures plan[j].location != plan[k].location {
          if j == 0 {
            assert plan[k] == rest[k - 1];
            HeadKeyDiffers(fs, listing, config, guessType, k - 1);
          } else {
            assert plan[j] == rest[j - 1] && plan[k] == rest[k - 1];
            assert rest[j - 1].location != rest[k - 1].location;
          }
        }
        assert LocationsDistinct(plan);
      }
    }
  }

  /** A completed walk publishes one given regular file below dist at its key,
      with its bytes and content type. */
  lemma UploadPublishesFile(fs: Fs, listing: seq<Path>, config: Config, tools: Tools, store: Store, p: Path)
    requires IsWalk(fs, listing) && WellFormed(fs)
    requires UploadEach(fs, listing, config, tools, store).failure.None?
    requires IsFile(fs, p) && StrictlyUnder(DistDir, p)
    ensures var u := UploadEach(fs, listing, config, tools, store);
      var loc := Location(config.bucket, Key(config.projectId, p[|DistDir|..]));
      loc in u.store && u.store[loc] == Object(fs[p].body, ContentType(tools.guessType(PathText(p))))
  {
    var u := UploadEach(fs, listing, config, tools, store);
    var plan := Planned(fs, listing, config, tools.guessType);
    assert u.store == ApplyAll(store, plan);
    PlannedLocationsDistinct(fs, listing, config, tools.guessType);
    var rel := p[|DistDir|..];
    assert p == DistDir + rel;
    assert rel in listing;
    var i :| 0 <= i < |listing| && listing[i] == rel;
    var j := PlannedCovers(fs, listing, config, tools.guessType, i);
    ApplyAllLast(store, plan, j);
  }

  /** Whatever happens, an upload loop over a walk only ever writes the
      locations of regular files below dist: directories produce no upload. */
  lemma UploadTouchesOnlyFiles(fs: Fs, listing: seq<Path>, config: Config, tools: Tools, store: Store)
    requires Listed(fs, listing)
    ensures UploadEach(fs, listing, config, tools, store).store.Keys <= store.Keys + FileLocations(fs, config)
  {
    var u := UploadEach(fs, listing, config, tools, store);
    var plan := Planned(fs, listing, config, tools.guessType);
    forall k | 0 <= k < |u.puts| ensures u.puts[k].location in FileLocations(fs, config) {
      assert u.puts[k] == plan[k];
      var i := PlannedFromListing(fs, listing, config, tools.guessType, k);
      var p := DistDir + listing[i];
      ConcatSuffix(DistDir, listing[i]);
      assert StrictlyUnder(DistDir, p);
    }
  }

  /** A failed clone stops the run: no build, no upload, the bucket untouched. */
  lemma CloneFailureAborts(fs: Fs, config: Config, tools: Tools, store: Store)
    requires CloneRepo(fs, config.repoUrl, tools.gitClone).Failure?
    ensures var d := Main(fs, config, tools, store);
      && d.stages == [Clone] && d.store == store && d.puts == []
      && d.failure == Some(CloneRepo(fs, config.repoUrl, tools.gitClone).error)
  {
  }

  /** A build that exits non-zero stops the run before any upload, with "Build
      failed" unless its output already failed to decode. */
  lemma BuildFailureAborts(fs: Fs, config: Config, tools: Tools, store: Store)
    requires CloneRepo(fs, config.repoUrl, tools.gitClone).Success?
    requires tools.npmBuild(CloneRepo(fs, config.repoUrl, tools.gitClone).value).exitCode != 0
    ensures var d := Main(fs, config, tools, store);
      var run := tools.npmBuild(CloneRepo(fs, config.repoUrl, tools.gitClone).value);
      && d.stages == [Clone, Build] && d.store == store && d.puts == []
      && d.failure == Some(if run.outputDecodes then BuildFailed else OutputUndecodable)
  {
  }

  /** Build output that does not decode stops the run before any upload, even
      when the build itself exits 0. */
  lemma UndecodableOutputAborts(fs: Fs, config: Config, tools: Tools, store: Store)
    requires CloneRepo(fs, config.repoUrl, tools.gitClone).Success?
    requires !tools.npmBuild(CloneRepo(fs, config.repoUrl, tools.gitClone).value).outputDecodes
    ensures var d := Main(fs, config, tools, store);
      && d.stages == [Clone, Build] && d.store == store && d.puts == []
      && d.failure == Some(OutputUndecodable)
  {
  }

  /** A successful build without a dist folder uploads nothing. */
  lemma MissingDistUploadsNothing(fs: Fs, config: Config, tools: Tools, store: Store)
    requires var d := Main(fs, config, tools, store); d.built.Some? && DistDir !in d.built.value
    ensures var d := Main(fs, config, tools, store);
      d.failure == Some(DistMissing) && d.store == store && d.puts == []
  {
  }

  /** The build runs exactly when the clone succeeded, and uploads start exactly
      when the build succeeded as well. */
  lemma StagesFollowOutcomes(fs: Fs, config: Config, tools: Tools, store: Store)
    ensures var d := Main(fs, config, tools, store);
      var clone := CloneRepo(fs, config.repoUrl, tools.gitClone);
      && (Build in d.stages <==> clone.Success?)
      && (Upload in d.stages <==> clone.Success? && RunBuild(clone.value, tools.npmBuild).Success?)
  {
  }

  /** A failed upload keeps everything uploaded before it: the bucket is the old
      bucket plus a prefix of the planned uploads, ending just before the one
      that raised. */
  lemma UploadFailureKeepsEarlierUploads(fs: Fs, config: Config, tools: Tools, store: Store)
    requires var d := Main(fs, config, tools, store);
      d.built.Some? && d.failure.Some? && d.failure.value.UploadFailed?
    ensures var d := Main(fs, config, tools, store);
      var b := d.built.value;
      var plan := Planned(b, tools.rglob(b), config, tools.guessType);
      && d.store == ApplyAll(store, plan[..|d.puts|])
      && |d.puts| < |plan|
      && tools.upload(plan[|d.puts|]).Some?
  {
  }

  /** A completed walk publishes exactly the regular files below dist: each at
      its key, with its bytes and content type, and nothing else. */
  lemma WalkPublishesExactlyTheFiles(fs: Fs, listing: seq<Path>, config: Config, tools: Tools, store: Store)
    requires IsWalk(fs, listing) && WellFormed(fs)
    requires UploadEach(fs, listing, config, tools, store).failure.None?
    ensures var u := UploadEach(fs, listing, config, tools, store);
      && u.store.Keys == store.Keys + FileLocations(fs, config)
      && forall p :: IsFile(fs, p) && StrictlyUnder(DistDir, p) ==>
           u.store[Location(config.bucket, Key(config.projectId, p[|DistDir|..]))]
             == Object(fs[p].body, ContentType(tools.guessType(PathText(p))))
  {
    var u := UploadEach(fs, listing, config, tools, store);
    UploadTouchesOnlyFiles(fs, listing, config, tools, store);
    forall p | IsFile(fs, p) && StrictlyUnder(DistDir, p)
      ensures var loc := Location(config.bucket, Key(config.projectId, p[|DistDir|..]));
        loc in u.store && u.store[loc] == Object(fs[p].body, ContentType(tools.guessType(PathText(p))))
    {
      UploadPublishesFile(fs, listing, config, tools, store, p);
    }
    forall loc | loc in FileLocations(fs, config) ensures loc in u.store {
      var p :| p in fs && StrictlyUnder(DistDir, p) && fs[p].File? &&
        loc == Location(config.bucket, Key(config.projectId, p[|DistDir|..]));
      assert IsFile(fs, p);
    }
  }

  /** A successful run publishes exactly the regular files the build left below
      dist: each at its key, with its bytes and content type, and nothing else. */
  lemma SuccessPublishesExactlyTheFiles(fs: Fs, config: Config, tools: Tools, store: Store)
    requires var d := Main(fs, config, tools, store);
      d.failure.None? && IsWalk(d.built.value, tools.rglob(d.built.value)) && WellFormed(d.built.value)
    ensures var d := Main(fs, config, tools, store);
      var b := d.built.value;
      && d.store.Keys == store.Keys + FileLocations(b, config)
      && forall p :: IsFile(b, p) && StrictlyUnder(DistDir, p) ==>
           d.store[Location(config.bucket, Key(config.projectId, p[|DistDir|..]))]
             == Object(b[p].body, ContentType(tools.guessType(PathText(p))))
  {
    var d := Main(fs, config, tools, store);
    var b := d.built.value;
    assert DistDir in b;
    assert d.store == UploadEach(b, tools.rglob(b), config, tools, store).store;
    WalkPublishesExactlyTheFiles(b, tools.rglob(b), config, tools, store);
  }
}

=== FILE: platform.dfy ===
/** How the three programs meet. The server's `run_task` command becomes the
    builder container's environment; the builder's uploads become objects the
    reverse proxy fetches through BASE_PATH; the URL the server hands out
    becomes the Host header the proxy routes on. */
module Platform {
  import opened Wrappers
  import Text
  import Proxy
  import Builder
  import Server

  /** The environment a launched container sees: the task definition's own
      variables, with each container override setting its name. A command with
      an override without a value never launches (`Server.ClientAccepts`
      rejects it), so such an override sets nothing here. */
  function LaunchEnvironment(base: map<string, string>, overrides: seq<Server.EnvVar>): (env: map<string, string>)
    ensures forall name :: name in base && (forall i :: 0 <= i < |overrides| ==> overrides[i].name != name) ==>
      name in env && env[name] == base[name]
    decreases |overrides|
  {
    if |overrides| == 0 then base
    else
      var next := if overrides[0].value.Some? then base[overrides[0].name := overrides[0].value.value] else base;
      LaunchEnvironment(next, overrides[1..])
  }

  /** An override that no later override touches decides the variable. */
  lemma {:induction false} LastOverrideWins(base: map<string, string>, overrides: seq<Server.EnvVar>, i: nat)
    requires i < |overrides| && overrides[i].value.Some?
    requires forall k :: i < k < |overrides| ==> overrides[k].name != overrides[i].name
    ensures overrides[i].name in LaunchEnvironment(base, overrides)
    ensures LaunchEnvironment(base, overrides)[overrides[i].name] == overrides[i].value.value
    decreases |overrides|
  {
    var next := if overrides[0].value.Some? then base[overrides[0].name := overrides[0].value.value] else base;
    if i > 0 {
      LastOverrideWins(next, overrides[1..], i - 1);
    }
  }

  /** A variable no override names is left as the task definition set it, or
      unset. */
  lemma {:induction false} UntouchedVariable(base: map<string, string>, overrides: seq<Server.EnvVar>, name: string)
    requires forall k :: 0 <= k < |overrides| ==> overrides[k].name != name
    ensures Get(LaunchEnvironment(base, overrides), name) == Get(base, name)
    decreases |overrides|
  {
    if |overrides| > 0 {
      var next := if overrides[0].value.Some? then base[overrides[0].name := overrides[0].value.value] else base;
      UntouchedVariable(next, overrides[1..], name);
    }
  }

  /** What the builder reads when launched by `command` from a task definition
      whose environment is `taskEnv`. */
  function BuilderConfig(taskEnv: map<string, string>, command: Server.Command): Builder.Config
  {
    Builder.LoadConfig(LaunchEnvironment(taskEnv, command.environment))
  }

  /** The builder publishes under the slug the server chose. */
  lemma BuilderSeesSlug(settings: Server.Settings, taskEnv: map<string, string>, gitURL: Option<string>, slug: string)
    requires Server.ClientAccepts(Server.TaskCommand(settings, gitURL, slug))
    ensures BuilderConfig(taskEnv, Server.TaskCommand(settings, gitURL, slug)).projectId == Some(slug)
  {
    var overrides := Server.TaskCommand(settings, gitURL, slug).environment;
    LastOverrideWins(taskEnv, overrides, 1);
  }

  /** As written, the repository URL of the request never reaches the builder:
      the server sets GIT_REPOSITORY__URL, the builder reads GIT_REPOSITORY_URL.
      Unless the task definition supplies that variable itself, the clone fails
      before git runs and nothing is built or uploaded. */
  lemma RequestRepoUrlIsLost(settings: Server.Settings, taskEnv: map<string, string>, gitURL: Option<string>,
                             slug: string, fs: Builder.Fs, tools: Builder.Tools, store: Builder.Store)
    requires Server.ClientAccepts(Server.TaskCommand(settings, gitURL, slug))
    ensures BuilderConfig(taskEnv, Server.TaskCommand(settings, gitURL, slug)).repoUrl
      == Get(taskEnv, "GIT_REPOSITORY_URL")
    ensures "GIT_REPOSITORY_URL" !in taskEnv && !Builder.IsFile(fs, Builder.OutputDir) ==>
      var d := Builder.Main(fs, BuilderConfig(taskEnv, Server.TaskCommand(settings, gitURL, slug)), tools, store);
      d.failure == Some(Builder.RepoUrlUnset) && d.stages == [Builder.Clone] && d.store == store
  {
    var overrides := Server.TaskCommand(settings, gitURL, slug).environment;
    UntouchedVariable(taskEnv, overrides, "GIT_REPOSITORY_URL");
  }

  /** With the variable named as the builder reads it, the request's repository
      URL is the one cloned. */
  lemma CorrectedDeliversRepoUrl(settings: Server.Settings, taskEnv: map<string, string>, gitURL: Option<string>, slug: string)
    requires gitURL.Some?
    ensures var config := BuilderConfig(taskEnv, Server.CorrectedTaskCommand(settings, gitURL, slug));
      config.repoUrl == gitURL && config.projectId == Some(slug)
  {
    var overrides := Server.CorrectedTaskCommand(settings, gitURL, slug).environment;
    LastOverrideWins(taskEnv, overrides, 0);
    LastOverrideWins(taskEnv, overrides, 1);
  }

  /** A slug of lower-case letters, digits and `-` only. Its URL names the host
      `{slug}.localhost:8000`, which clients send unchanged. */
  predicate RoutableSlug(slug: string)
  {
    forall i :: 0 <= i < |slug| ==> Server.IsSlugChar(slug[i]) || slug[i] == '-'
  }

  function LowerChar(c: char): char
  {
    if 'A' <= c <= 'Z' then (c as int + 32) as char else c
  }

  /** The Host header a client sends for the host of a URL it parsed: ASCII
      letters lowercased, as browsers and HTTP client libraries do. */
  function ClientHost(host: string): (sent: string)
    ensures |sent| == |host|
    ensures forall i :: 0 <= i < |host| ==> sent[i] == LowerChar(host[i])
  {
    seq(|host|, i requires 0 <= i < |host| => LowerChar(host[i]))
  }

  /** The host of a routable slug's URL reaches the proxy as written. */
  lemma ClientKeepsRoutableHost(slug: string)
    requires RoutableSlug(slug)
    ensures ClientHost(Server.ProjectHost(slug)) == Server.ProjectHost(slug)
  {
    var host := Server.ProjectHost(slug);
    forall i | 0 <= i < |host| ensures LowerChar(host[i]) == host[i] {
      if i >= |slug| {
        assert host[i] == Server.ServingSuffix[i - |slug|];
      }
    }
  }

  /** The URL handed out for a routable slug routes back to that slug, both as
      written and as a client sends its host. */
  lemma ProjectUrlRoutesToSlug(slug: string)
    requires RoutableSlug(slug)
    ensures Proxy.Subdomain(Server.ProjectHost(slug)) == slug
    ensures Proxy.Subdomain(ClientHost(Server.ProjectHost(slug))) == slug
  {
    var host := Server.ProjectHost(slug);
    assert host[..|slug|] == slug && host[|slug|] == '.';
    Proxy.SubdomainUnique(host, slug);
    ClientKeepsRoutableHost(slug);
  }

  /** Generated slugs are routable, and so hold no dot. */
  lemma GeneratedSlugsHaveNoDot(slug: string)
    requires forall i :: 0 <= i < |slug| ==> Server.IsSlugChar(slug[i])
    ensures RoutableSlug(slug) && '.' !in slug
  {
  }

  /** A requested slug with a capital letter is not routed back to its folder:
      the client lowercases the host, so "MySite" is served from "mysite". */
  lemma CapitalSlugMisroutes(slug: string, i: nat)
    requires '.' !in slug && i < |slug| && 'A' <= slug[i] <= 'Z'
    ensures Proxy.Subdomain(ClientHost(Server.ProjectHost(slug))) != slug
  {
    var host := Server.ProjectHost(slug);
    var sent := ClientHost(host);
    assert host[|slug|] == '.';
    var first := sent[..|slug|];
    forall k | 0 <= k < |first| ensures first[k] != '.' {
      assert first[k] == LowerChar(slug[k]);
    }
    Proxy.SubdomainUnique(sent, first);
    assert first[i] == LowerChar(slug[i]) != slug[i];
  }

  /** A requested slug with a dot is served from another site's folder: the URL
      handed out routes to the slug's first dot-separated label ("my.site" to
      "my"), never to the slug itself. */
  lemma DottedSlugMisroutes(slug: string)
    requires '.' in slug
    ensures Proxy.Subdomain(Server.ProjectHost(slug)) == Text.Split(slug, '.')[0]
    ensures Proxy.Subdomain(Server.ProjectHost(slug)) != slug
  {
    var host := Server.ProjectHost(slug);
    Text.FirstSegment(slug, '.');
    var first := Text.Split(slug, '.')[0];
    assert host[..|first|] == slug[..|first|] && host[|first|] == slug[|first|];
    Proxy.SubdomainUnique(host, first);
  }

  /** The bucket's HTTP endpoint, with BASE_PATH addressing its `__outputs/`
      folder: a stored object answers 200 with its bytes and type, anything else
      404. */
  function BucketEndpoint(basePath: string, bucket: string, store: Builder.Store): string -> Proxy.Fetch
  {
    url =>
      var prefix := basePath + "/";
      if |prefix| <= |url| && url[..|prefix|] == prefix
         && Builder.Location(bucket, Builder.OutputsPrefix + url[|prefix|..]) in store
      then
        var obj := store[Builder.Location(bucket, Builder.OutputsPrefix + url[|prefix|..])];
        Proxy.Got(Proxy.Reply(200, obj.body, map["content-type" := obj.contentType]))
      else Proxy.Got(Proxy.Reply(404, "", map[]))
  }

  function SiteKey(slug: string, path: string): string
  {
    Builder.OutputsPrefix + slug + path
  }

  /** The endpoint answers a site's URL from the object at the site's key. */
  lemma EndpointServes(basePath: string, bucket: string, store: Builder.Store, slug: string, path: string)
    ensures var loc := Builder.Location(bucket, SiteKey(slug, path));
      BucketEndpoint(basePath, bucket, store)(basePath + "/" + slug + path)
        == if loc in store then Proxy.Got(Proxy.Reply(200, store[loc].body, map["content-type" := store[loc].contentType]))
           else Proxy.Got(Proxy.Reply(404, "", map[]))
  {
    var prefix := basePath + "/";
    var url := basePath + "/" + slug + path;
    assert url == prefix + (slug + path);
    assert url[..|prefix|] == prefix && url[|prefix|..] == slug + path;
    assert Builder.OutputsPrefix + (slug + path) == SiteKey(slug, path);
  }

  /** Behind the URL handed out for a routable slug, the proxy fetches from
      BASE_PATH/slug. */
  lemma SiteRootOfProjectHost(basePath: string, slug: string)
    requires RoutableSlug(slug)
    ensures Proxy.SiteRoot(Some(basePath), Some(ClientHost(Server.ProjectHost(slug)))) == basePath + "/" + slug
  {
    ProjectUrlRoutesToSlug(slug);
  }

  /** A site's root serves its published index.html. */
  lemma RootServesIndex(basePath: string, bucket: string, store: Builder.Store, slug: string)
    requires RoutableSlug(slug)
    requires Builder.Location(bucket, SiteKey(slug, "/index.html")) in store
    ensures var p := Proxy.Resolve(Some(basePath), Some(ClientHost(Server.ProjectHost(slug))), "/", BucketEndpoint(basePath, bucket, store));
      && p.fetched == [basePath + "/" + slug + "/index.html"]
      && p.response.status == 200
      && p.response.body == store[Builder.Location(bucket, SiteKey(slug, "/index.html"))].body
  {
    var up := BucketEndpoint(basePath, bucket, store);
    var host := Some(ClientHost(Server.ProjectHost(slug)));
    var obj := store[Builder.Location(bucket, SiteKey(slug, "/index.html"))];
    SiteRootOfProjectHost(basePath, slug);
    var target := Proxy.SiteRoot(Some(basePath), host) + Proxy.NormalizePath("/");
    assert target == basePath + "/" + slug + "/index.html";
    EndpointServes(basePath, bucket, store, slug, "/index.html");
    assert up(target) == Proxy.Got(Proxy.Reply(200, obj.body, map["content-type" := obj.contentType]));
    Proxy.PassThrough(Some(basePath), host, "/", up, Proxy.Reply(200, obj.body, map["content-type" := obj.contentType]));
  }

  /** SPA fallback end to end: a path with no object behind it serves the site's
      index.html. */
  lemma UnknownRouteServesIndex(basePath: string, bucket: string, store: Builder.Store, slug: string, path: string)
    requires RoutableSlug(slug) && path != "/"
    requires Builder.Location(bucket, SiteKey(slug, path)) !in store
    requires Builder.Location(bucket, SiteKey(slug, "/index.html")) in store
    ensures var p := Proxy.Resolve(Some(basePath), Some(ClientHost(Server.ProjectHost(slug))), path, BucketEndpoint(basePath, bucket, store));
      && |p.fetched| == 2
      && p.response.status == 200
      && p.response.body == store[Builder.Location(bucket, SiteKey(slug, "/index.html"))].body
  {
    var up := BucketEndpoint(basePath, bucket, store);
    var host := Some(ClientHost(Server.ProjectHost(slug)));
    var obj := store[Builder.Location(bucket, SiteKey(slug, "/index.html"))];
    var index := Proxy.Reply(200, obj.body, map["content-type" := obj.contentType]);
    SiteRootOfProjectHost(basePath, slug);
    var target := Proxy.SiteRoot(Some(basePath), host) + Proxy.NormalizePath(path);
    assert target == basePath + "/" + slug + path;
    EndpointServes(basePath, bucket, store, slug, path);
    assert up(target) == Proxy.Got(Proxy.Reply(404, "", map[]));
    var fallback := Proxy.SiteRoot(Some(basePath), host) + Proxy.IndexPath;
    assert fallback == basePath + "/" + slug + "/index.html";
    EndpointServes(basePath, bucket, store, slug, "/index.html");
    assert up(fallback) == Proxy.Got(index);
    Proxy.FallbackOn404(Some(basePath), host, path, up, index);
  }

  /** The builder's key for dist/index.html is the key the proxy asks for at a
      site's root. */
  lemma IndexKey(slug: string)
    ensures Builder.Key(Some(slug), ["index.html"]) == SiteKey(slug, "/index.html")
  {
    assert Builder.RelativeText(["index.html"]) == "index.html";
    assert Builder.OutputsPrefix + slug + "/" + "index.html" == Builder.OutputsPrefix + slug + "/index.html";
  }

  /** Deploy, build, serve: when the builder runs for a routable slug and
      succeeds with dist/index.html among its outputs, the site's root serves
      exactly that file. */
  lemma DeployedSiteServesIndex(basePath: string, slug: string, fs: Builder.Fs, config: Builder.Config,
                                tools: Builder.Tools, store: Builder.Store)
    requires RoutableSlug(slug) && config.projectId == Some(slug)
    requires var d := Builder.Main(fs, config, tools, store);
      && d.failure.None?
      && Builder.IsWalk(d.built.value, tools.rglob(d.built.value))
      && Builder.WellFormed(d.built.value)
      && Builder.IsFile(d.built.value, Builder.DistDir + ["index.html"])
    ensures var d := Builder.Main(fs, config, tools, store);
      var p := Proxy.Resolve(Some(basePath), Some(ClientHost(Server.ProjectHost(slug))), "/", BucketEndpoint(basePath, config.bucket, d.store));
      && p.response.status == 200
      && p.response.body == d.built.value[Builder.DistDir + ["index.html"]].body
  {
    var d := Builder.Main(fs, config, tools, store);
    var b := d.built.value;
    var index := Builder.DistDir + ["index.html"];
    var loc := Builder.Location(config.bucket, SiteKey(slug, "/index.html"));
    Builder.SuccessPublishesExactlyTheFiles(fs, config, tools, store);
    Builder.ConcatSuffix(Builder.DistDir, ["index.html"]);
    assert Builder.StrictlyUnder(Builder.DistDir, index);
    IndexKey(slug);
    assert loc in d.store && d.store[loc].body == b[index].body;
    RootServesIndex(basePath, config.bucket, d.store, slug);
  }
}

=== FILE: proxy.dfy ===
/** The routing resolver of reverse-proxy/main.py: every inbound request is
    mapped from its Host header and path to an upstream URL under BASE_PATH,
    fetched with a GET, retried once against the site's index.html when the
    upstream answers 404 (SPA fallback), and passed back unchanged. The HTTP
    client is an oracle `upstream` from URL to reply or raised exception. */
module Proxy {
  import opened Wrappers
  import Text

  /** An upstream HTTP reply as the client sees it. */
  datatype Reply = Reply(status: int, body: string, headers: map<string, string>)

  /** What one `client.get(url)` does: answers, or raises with a message. */
  datatype Fetch = Got(reply: Reply) | Raised(message: string)

  /** The response sent to the client, with the URLs fetched to produce it, in
      order. */
  datatype Proxied = Proxied(response: Reply, fetched: seq<string>)

  const IndexPath := "/index.html"
  const ErrorPrefix := "Proxy error: "

  /** The subdomain named by a Host header: the text before its first dot, or
      the whole header when it has no dot. */
  function Subdomain(host: string): (sub: string)
    ensures |sub| <= |host| && host[..|sub|] == sub
    ensures '.' !in sub
    ensures '.' in host ==> |sub| < |host| && host[|sub|] == '.'
    ensures '.' !in host ==> sub == host
  {
    Text.FirstSegment(host, '.');
    if '.' in host then Text.Split(host, '.')[0] else host
  }

  /** The dot test in front of the split changes nothing: the subdomain is always
      the first dot-separated label. */
  lemma SubdomainIsFirstLabel(host: string)
    ensures Subdomain(host) == Text.Split(host, '.')[0]
  {
    if '.' !in host {
      Text.SplitWithoutSeparator(host, '.');
    }
  }

  /** Any prefix of the host that stops at a dot (or at the end) and holds no dot
      is the subdomain: the first label is the only such prefix. */
  lemma SubdomainUnique(host: string, t: string)
    requires |t| <= |host| && host[..|t|] == t && '.' !in t
    requires |t| == |host| || host[|t|] == '.'
    ensures t == Subdomain(host)
  {
  }

  /** The request path with `/` replaced by the site index: the bare site
      folder is never fetched, and no other path is touched. */
  function NormalizePath(path: string): (q: string)
    ensures q != "/"
    ensures q == path || (path == "/" && q == IndexPath)
  {
    if path == "/" then IndexPath else path
  }

  /** `f"{BASE_PATH}/{subdomain}"`: the upstream folder of the addressed site,
      named by the Host header's first dot-separated label (the empty label when
      the header is missing). */
  function SiteRoot(basePath: Option<string>, hostHeader: Option<string>): (root: string)
    ensures var folder := Text.Format(basePath) + "/";
      && |folder| <= |root| && root[..|folder|] == folder
      && root[|folder|..] == Text.Split(hostHeader.GetOr(""), '.')[0]
  {
    SubdomainIsFirstLabel(hostHeader.GetOr(""));
    var folder := Text.Format(basePath) + "/";
    var root := folder + Subdomain(hostHeader.GetOr(""));
    assert root[|folder|..] == Subdomain(hostHeader.GetOr(""));
    root
  }

  /** The client's view of a fetch that raised: status 500 and the
      exception's message. */
  function ErrorResponse(message: string): (r: Reply)
    ensures r.status == 500 && r.headers == map[]
    ensures |r.body| >= |ErrorPrefix| && r.body[..|ErrorPrefix|] == ErrorPrefix
    ensures r.body[|ErrorPrefix|..] == message
  {
    Reply(500, ErrorPrefix + message, map[])
  }

  /** `proxy_to_s3`: one GET of the target, one SPA-fallback GET when that
      answers 404, the final reply passed through, a raised fetch turned into a
      500. */
  function Resolve(basePath: Option<string>, hostHeader: Option<string>, path: string,
                   upstream: string -> Fetch): (p: Proxied)
    ensures 1 <= |p.fetched| <= 2
    ensures p.fetched[0] == SiteRoot(basePath, hostHeader) + NormalizePath(path)
    ensures |p.fetched| == 2 <==> upstream(p.fetched[0]).Got? && upstream(p.fetched[0]).reply.status == 404
    ensures |p.fetched| == 2 ==> p.fetched[1] == SiteRoot(basePath, hostHeader) + IndexPath
    ensures var last := upstream(p.fetched[|p.fetched| - 1]);
      && (last.Got? ==> p.response == last.reply)
      && (last.Raised? ==> p.response == ErrorResponse(last.message))
  {
    var root := SiteRoot(basePath, hostHeader);
    var target := root + NormalizePath(path);
    match upstream(target)
    case Raised(e) => Proxied(ErrorResponse(e), [target])
    case Got(first) =>
      if first.status == 404 then
        var fallback := root + IndexPath;
        match upstream(fallback)
        case Raised(e) => Proxied(ErrorResponse(e), [target, fallback])
        case Got(second) => Proxied(second, [target, fallback])
      else
        Proxied(first, [target])
  }

  /** Path normalisation: `/` is served from the site's index.html, every other
      path (a trailing slash included) is fetched as given. */
  lemma RootFetchesIndex(basePath: Option<string>, host: string, path: string, upstream: string -> Fetch)
    ensures var p := Resolve(basePath, Some(host), path, upstream);
      && (path == "/" ==> p.fetched[0] == Text.Format(basePath) + "/" + Subdomain(host) + "/index.html")
      && (path != "/" ==> p.fetched[0] == Text.Format(basePath) + "/" + Subdomain(host) + path)
  {
  }

  /** A missing Host header addresses the site whose subdomain is empty. */
  lemma MissingHostIsEmptySubdomain(basePath: Option<string>, path: string, upstream: string -> Fetch)
    ensures Resolve(basePath, None, path, upstream).fetched[0] == Text.Format(basePath) + "/" + NormalizePath(path)
  {
  }

  /** Bounded fallback: a 404 from the target triggers exactly one more fetch,
      of the site index, and whatever that returns is the answer, even another
      404. */
  lemma FallbackOn404(basePath: Option<string>, hostHeader: Option<string>, path: string,
                      upstream: string -> Fetch, second: Reply)
    requires var t := SiteRoot(basePath, hostHeader) + NormalizePath(path);
      upstream(t).Got? && upstream(t).reply.status == 404
    requires upstream(SiteRoot(basePath, hostHeader) + IndexPath) == Got(second)
    ensures var p := Resolve(basePath, hostHeader, path, upstream);
      && p.fetched == [SiteRoot(basePath, hostHeader) + NormalizePath(path), SiteRoot(basePath, hostHeader) + IndexPath]
      && p.response == second
  {
  }

  /** Pass-through: any target reply other than 404 is the answer, status, body
      and headers alike, and nothing else is fetched. */
  lemma PassThrough(basePath: Option<string>, hostHeader: Option<string>, path: string,
                    upstream: string -> Fetch, first: Reply)
    requires upstream(SiteRoot(basePath, hostHeader) + NormalizePath(path)) == Got(first)
    requires first.status != 404
    ensures var p := Resolve(basePath, hostHeader, path, upstream);
      && |p.fetched| == 1
      && p.response.status == first.status
      && p.response.body == first.body
      && p.response.headers == first.headers
  {
  }

  /** A transport failure on either fetch becomes a 500 carrying the exception's
      message; a failed target fetch is never followed by the fallback. */
  lemma RaisedIs500(basePath: Option<string>, hostHeader: Option<string>, path: string,
                    upstream: string -> Fetch)
    ensures var p := Resolve(basePath, hostHeader, path, upstream);
      var t := upstream(p.fetched[0]);
      && (t.Raised? ==> |p.fetched| == 1 && p.response == Reply(500, "Proxy error: " + t.message, map[]))
      && (|p.fetched| == 2 && upstream(p.fetched[1]).Raised? ==>
            p.response == Reply(500, "Proxy error: " + upstream(p.fetched[1]).message, map[]))
  {
  }

  /** The resolver never invents a status: the answer is 500 or a status some
      fetch it made returned. */
  lemma StatusComesFromUpstream(basePath: Option<string>, hostHeader: Option<string>, path: string,
                                upstream: string -> Fetch)
    ensures var p := Resolve(basePath, hostHeader, path, upstream);
      p.response.status == 500 ||
      exists i :: 0 <= i < |p.fetched| && upstream(p.fetched[i]) == Got(p.response)
  {
    var p := Resolve(basePath, hostHeader, path, upstream);
    var i := |p.fetched| - 1;
    if upstream(p.fetched[i]).Got? {
      assert upstream(p.fetched[i]) == Got(p.response);
    }
  }
}

=== FILE: server.dfy ===
/** The deploy endpoint of server/main.py: `POST /project` picks a slug (the
    request's, or a random one), dispatches one build task whose container
    environment carries the repository URL and the slug, and answers "queued"
    with the site's URL. The ECS client is an oracle `runTask` that either
    returns or raises; randomness is a nondeterministic choice. */
module Server {
  import opened Wrappers
  import Text

  /** `string.ascii_lowercase + string.digits`. */
  const Alphabet := "abcdefghijklmnopqrstuvwxyz0123456789"
  const DefaultSlugLength := 8
  const LaunchType := "FARGATE"
  const AssignPublicIp := "ENABLED"
  const ContainerName := "build-server-image"
  const RepoUrlVar := "GIT_REPOSITORY__URL"
  const ProjectIdVar := "PROJECT_ID"
  const ServingSuffix := ".localhost:8000"

  predicate IsSlugChar(c: char)
  {
    'a' <= c <= 'z' || '0' <= c <= '9'
  }

  /** The slug alphabet is exactly the lower-case ASCII letters and digits. */
  lemma AlphabetIsSlugChars(c: char)
    ensures c in Alphabet <==> IsSlugChar(c)
  {
    if IsSlugChar(c) {
      var k := if c <= '9' then 26 + (c as int - '0' as int) else c as int - 'a' as int;
      assert Alphabet[k] == c;
    }
  }

  /** `generate_slug(length)`: `length` characters drawn from the alphabet; a
      negative length draws none. */
  method GenerateSlug(length: int := DefaultSlugLength) returns (slug: string)
    ensures |slug| == if length < 0 then 0 else length
    ensures forall i :: 0 <= i < |slug| ==> IsSlugChar(slug[i])
  {
    slug := "";
    while |slug| < length
      invariant |slug| <= if length < 0 then 0 else length
      invariant forall i :: 0 <= i < |slug| ==> IsSlugChar(slug[i])
    {
      assert Alphabet[0] in Alphabet;
      var c :| c in Alphabet;
      AlphabetIsSlugChars(c);
      slug := slug + [c];
    }
  }

  /** The fields of the request body the handler reads; `None` when absent or
      null. */
  datatype DeployRequest = DeployRequest(gitURL: Option<string>, slug: Option<string>)

  /** Python truthiness of an optional string. */
  predicate Truthy(v: Option<string>)
  {
    v.Some? && v.value != ""
  }

  /** `body.get("slug") or generate_slug()`, given what the generator would
      return. */
  function ChooseSlug(requested: Option<string>, generated: string): (slug: string)
    ensures Truthy(requested) ==> slug == requested.value
    ensures !Truthy(requested) ==> slug == generated
    ensures slug != "" || generated == ""
  {
    if Truthy(requested) then requested.value else generated
  }

  /** `SUBNETS` and `SECURITY_GROUPS`: empty when unset or empty, otherwise the
      value split on commas, empty segments kept. */
  function CommaList(value: Option<string>): (items: seq<string>)
    ensures !Truthy(value) ==> items == []
    ensures Truthy(value) ==>
      && |items| == Text.Count(value.value, ',') + 1
      && Text.SeparatorFree(items, ',')
      && Text.Join(items, ',') == value.value
  {
    if Truthy(value) then Text.Split(value.value, ',') else []
  }

  /** Any list of comma-free names can be configured, except the list holding
      one empty name: joining it gives "", which reads back as no names at all. */
  lemma CommaListRoundTrip(items: seq<string>)
    requires |items| > 0 && Text.SeparatorFree(items, ',')
    ensures CommaList(Some(Text.Join(items, ','))) == (if items == [""] then [] else items)
  {
    if items != [""] {
      if Text.Join(items, ',') == "" {
        assert |items| == 1;
      }
      Text.SplitJoin(items, ',');
    }
  }

  /** Empty segments survive: "a,,b" configures three subnets, the middle one
      empty. */
  lemma CommaListKeepsEmptySegments()
    ensures CommaList(Some("a,,b")) == ["a", "", "b"]
  {
    Text.SplitWithoutSeparator("b", ',');
    Text.SplitAfterSegment("", "b", ',');
    assert "" + [','] + "b" == ",b";
    Text.SplitAfterSegment("a", ",b", ',');
    assert "a" + [','] + ",b" == "a,,b";
  }

  /** The server's configuration, read once from its environment. */
  datatype Settings = Settings(cluster: Option<string>, taskDefinition: Option<string>,
                               subnets: seq<string>, securityGroups: seq<string>)

  /** The cluster and task definition are read as they are (possibly unset);
      the two lists are empty exactly when their variable is unset or empty, and
      otherwise join back to the variable's value. */
  function LoadSettings(env: map<string, string>): (settings: Settings)
    ensures settings.cluster == Get(env, "ECS_CLUSTER") && settings.taskDefinition == Get(env, "ECS_TASK")
    ensures settings.subnets == [] <==> !Truthy(Get(env, "SUBNETS"))
    ensures Truthy(Get(env, "SUBNETS")) ==> Text.Join(settings.subnets, ',') == env["SUBNETS"]
    ensures settings.securityGroups == [] <==> !Truthy(Get(env, "SECURITY_GROUPS"))
    ensures Truthy(Get(env, "SECURITY_GROUPS")) ==> Text.Join(settings.securityGroups, ',') == env["SECURITY_GROUPS"]
  {
    Settings(Get(env, "ECS_CLUSTER"), Get(env, "ECS_TASK"),
             CommaList(Get(env, "SUBNETS")), CommaList(Get(env, "SECURITY_GROUPS")))
  }

  /** One `{"name": ..., "value": ...}` entry of a container override. */
  datatype EnvVar = EnvVar(name: string, value: Option<string>)

  /** The keyword arguments of `run_task`. */
  datatype Command = Command(
    cluster: Option<string>,
    taskDefinition: Option<string>,
    launchType: string,
    count: int,
    assignPublicIp: string,
    subnets: seq<string>,
    securityGroups: seq<string>,
    containerName: string,
    environment: seq<EnvVar>)

  /** The `run_task` arguments of `create_project`: one Fargate task of the
      configured cluster and task definition, with a public IP in the configured
      network, whose build container receives the request's repository URL and
      the slug under two distinct names. */
  function TaskCommand(settings: Settings, gitURL: Option<string>, slug: string): (cmd: Command)
    ensures cmd.cluster == settings.cluster && cmd.taskDefinition == settings.taskDefinition
    ensures cmd.count == 1 && cmd.launchType == "FARGATE" && cmd.assignPublicIp == "ENABLED"
    ensures cmd.subnets == settings.subnets && cmd.securityGroups == settings.securityGroups
    ensures cmd.containerName == "build-server-image"
    ensures |cmd.environment| == 2 && cmd.environment[0].name != cmd.environment[1].name
    ensures cmd.environment[0] == EnvVar("GIT_REPOSITORY__URL", gitURL)
    ensures cmd.environment[1] == EnvVar("PROJECT_ID", Some(slug))
  {
    Command(settings.cluster, settings.taskDefinition, LaunchType, 1, AssignPublicIp,
            settings.subnets, settings.securityGroups, ContainerName,
            [EnvVar(RepoUrlVar, gitURL), EnvVar(ProjectIdVar, Some(slug))])
  }

  /** The same command with the repository URL under the name the builder
      reads (see the Findings of the README). */
  function CorrectedTaskCommand(settings: Settings, gitURL: Option<string>, slug: string): (cmd: Command)
    ensures |cmd.environment| == 2 && cmd.environment[0] == EnvVar("GIT_REPOSITORY_URL", gitURL)
    ensures cmd.environment[1] == TaskCommand(settings, gitURL, slug).environment[1]
    ensures cmd.(environment := []) == TaskCommand(settings, gitURL, slug).(environment := [])
  {
    TaskCommand(settings, gitURL, slug).(environment := [EnvVar("GIT_REPOSITORY_URL", gitURL), EnvVar(ProjectIdVar, Some(slug))])
  }

  /** The client-side parameter validation `run_task` performs before any
      request is sent: a string parameter given as `None` (an unset cluster or
      task definition, a missing `gitURL`) is rejected. */
  predicate ClientAccepts(command: Command)
  {
    && command.cluster.Some? && command.taskDefinition.Some?
    && forall i :: 0 <= i < |command.environment| ==> command.environment[i].value.Some?
  }

  const ValidationError := "Parameter validation failed"

  /** `ecs_client.run_task(**command)`: rejected by the client's validation, or
      else whatever the service does; None when it returns, the exception's
      message when it raises. */
  function RunTask(command: Command, service: Command -> Option<string>): (error: Option<string>)
    ensures !ClientAccepts(command) ==> error == Some(ValidationError)
    ensures ClientAccepts(command) ==> error == service(command)
  {
    if ClientAccepts(command) then service(command) else Some(ValidationError)
  }

  /** The host part of the URL handed out for `slug`; a client sends it
      lowercased (`Platform.ClientHost`). */
  function ProjectHost(slug: string): string
  {
    slug + ServingSuffix
  }

  function ProjectUrl(slug: string): (url: string)
    ensures |url| >= 7 && url[..7] == "http://" && url[7..] == ProjectHost(slug)
  {
    "http://" + ProjectHost(slug)
  }

  /** The JSON body of the answer. */
  datatype DeployReply = DeployReply(status: string, projectSlug: string, url: string)

  /** `create_project`: choose the slug, dispatch one build task, answer
      "queued". A `run_task` that raises leaves no reply, only its error.
      `service` is the ECS service behind the client's validation. */
  method CreateProject(settings: Settings, request: DeployRequest, service: Command -> Option<string>)
    returns (slug: string, command: Command, reply: Result<DeployReply, string>)
    ensures Truthy(request.slug) ==> slug == request.slug.value
    ensures !Truthy(request.slug) ==>
      |slug| == DefaultSlugLength && forall i :: 0 <= i < |slug| ==> IsSlugChar(slug[i])
    ensures command.count == 1
    ensures command.environment == [EnvVar("GIT_REPOSITORY__URL", request.gitURL), EnvVar("PROJECT_ID", Some(slug))]
    ensures command.subnets == settings.subnets && command.securityGroups == settings.securityGroups
    ensures command == TaskCommand(settings, request.gitURL, slug)
    ensures reply.Success? <==> ClientAccepts(command) && service(command).None?
    ensures reply.Success? ==>
      reply.value == DeployReply("queued", slug, "http://" + slug + ".localhost:8000")
    // a request without a gitURL, or a server without a cluster or task definition, is never queued
    ensures request.gitURL.None? || settings.cluster.None? || settings.taskDefinition.None? ==>
      reply == Failure(ValidationError)
    ensures ClientAccepts(command) && service(command).Some? ==> reply == Failure(service(command).value)
  {
    var generated := "";
    if !Truthy(request.slug) {
      generated := GenerateSlug();
    }
    slug := ChooseSlug(request.slug, generated);
    command := TaskCommand(settings, request.gitURL, slug);
    match RunTask(command, service)
    case Some(error) =>
      reply := Failure(error);
    case None =>
      reply := Success(DeployReply("queued", slug, ProjectUrl(slug)));
  }
}

=== FILE: text.dfy ===
/** Python's `str.split` and `str.join` for a one-character separator, with the
    facts the rest of the model relies on: splitting and joining are inverse, and
    the first segment is the text before the first separator. */
module Text {
  import opened Wrappers

  /** An optional string as an f-string renders it: an unset environment
      variable (`None`) reads "None". */
  function Format(v: Option<string>): string
  {
    v.GetOr("None")
  }

  /** Number of occurrences of `c` in `s`. */
  function Count(s: string, c: char): nat
  {
    if |s| == 0 then 0 else (if s[0] == c then 1 else 0) + Count(s[1..], c)
  }

  /** `[sep].join(parts)`; a join always has at least one part here. */
  function Join(parts: seq<string>, sep: char): string
    requires |parts| > 0
  {
    if |parts| == 1 then parts[0] else parts[0] + [sep] + Join(parts[1..], sep)
  }

  /** True when no part contains the separator. */
  predicate SeparatorFree(parts: seq<string>, sep: char)
  {
    forall i :: 0 <= i < |parts| ==> sep !in parts[i]
  }

  lemma JoinPrependChar(parts: seq<string>, c: char, sep: char)
    requires |parts| > 0
    ensures Join([[c] + parts[0]] + parts[1..], sep) == [c] + Join(parts, sep)
  {
    var q := [[c] + parts[0]] + parts[1..];
    assert q[0] == [c] + parts[0];
    assert q[1..] == parts[1..];
  }

  /** `s.split(sep)`: every segment between separators, empty ones included. */
  function Split(s: string, sep: char): (parts: seq<string>)
    ensures |parts| == Count(s, sep) + 1
    ensures SeparatorFree(parts, sep)
    ensures Join(parts, sep) == s
    decreases |s|
  {
    if |s| == 0 then [""]
    else
      var rest := Split(s[1..], sep);
      if s[0] == sep then
        assert ([""] + rest)[1..] == rest;
        [""] + rest
      else
        JoinPrependChar(rest, s[0], sep);
        assert s == [s[0]] + s[1..];
        [[s[0]] + rest[0]] + rest[1..]
  }

  /** A separator-free string splits into itself. */
  lemma {:induction false} SplitWithoutSeparator(p: string, sep: char)
    requires sep !in p
    ensures Split(p, sep) == [p]
    decreases |p|
  {
    if |p| > 0 {
      SplitWithoutSeparator(p[1..], sep);
      assert [p[0]] + p[1..] == p;
    }
  }

  /** Splitting `p + sep + t` peels off `p` as the first segment. */
  lemma {:induction false} SplitAfterSegment(p: string, t: string, sep: char)
    requires sep !in p
    ensures Split(p + [sep] + t, sep) == [p] + Split(t, sep)
    decreases |p|
  {
    var s := p + [sep] + t;
    if |p| == 0 {
      assert s == [sep] + t;
      assert s[1..] == t;
    } else {
      assert s[1..] == p[1..] + [sep] + t;
      SplitAfterSegment(p[1..], t, sep);
      assert [p[0]] + p[1..] == p;
    }
  }

  /** Joining separator-free parts and splitting again gives the parts back. */
  lemma {:induction false} SplitJoin(parts: seq<string>, sep: char)
    requires |parts| > 0
    requires SeparatorFree(parts, sep)
    ensures Split(Join(parts, sep), sep) == parts
    decreases |parts|
  {
    if |parts| == 1 {
      SplitWithoutSeparator(parts[0], sep);
    } else {
      SplitJoin(parts[1..], sep);
      SplitAfterSegment(parts[0], Join(parts[1..], sep), sep);
      assert [parts[0]] + parts[1..] == parts;
    }
  }

  /** The first segment of `s.split(sep)` is the longest separator-free prefix
      of `s`: it stops exactly at the first separator, or runs to the end. */
  lemma {:induction false} FirstSegment(s: string, sep: char)
    ensures var h := Split(s, sep)[0];
      && |h| <= |s| && s[..|h|] == h
      && (|h| < |s| ==> s[|h|] == sep)
      && (sep in s <==> |h| < |s|)
    decreases |s|
  {
    if |s| > 0 && s[0] != sep {
      FirstSegment(s[1..], sep);
      var h' := Split(s[1..], sep)[0];
      assert Split(s, sep)[0] == [s[0]] + h';
      assert s == [s[0]] + s[1..];
      if sep in s {
        assert sep in s[1..];
      }
    }
  }
}

=== FILE: wrappers.dfy ===
/** Option and Result wrappers used across the model: `Option` for values that
    may be absent (an unset environment variable, a missing header) and `Result`
    for operations that either return a value or raise an exception. */
module Wrappers {

  datatype Option<+T> = None | Some(value: T) {

    /** The wrapped value, or `default` when there is none. */
    function GetOr(default: T): T {
      match this
      case Some(v) => v
      case None => default
    }
  }

  datatype Result<+R, +E> = Success(value: R) | Failure(error: E)

  /** Map lookup that answers `None` for a missing key, as `dict.get` does. */
  function Get<K, V>(m: map<K, V>, k: K): Option<V>
  {
    if k in m then Some(m[k]) else None
  }
}
